=== FILE: README.md ===
# Quote ingest and credential cache: a Dafny model

This project models the core of a market-quote ingest service. The service:

- logs in to obtain a short-lived bearer token and an investor id, and caches them as one stored credential;
- connects to an MQTT broker with that credential;
- normalises every inbound quote;
- writes a quote to the quote collection and broadcasts it to subscribers only when it is new or materially changed.

Every part is modelled as pure functions over immutable values. The clock (`now`), the random draw, the replies of the two HTTP endpoints, and the parts of the JavaScript runtime that are not reproduced are all passed in as parameters. Those runtime parts are numeric parsing of strings, base64 + `JSON.parse` of a token payload, and `JSON.parse` of a message.

| file | models |
|---|---|
| `Wrappers.dfy` | `Option` and `Result` |
| `Js.dfy` | JavaScript values: numbers that may be NaN, field values, plain objects as records, truthiness, `Number()`, `===`, `>` |
| `Configuration.dfy` | the configuration service as a map from setting name to value |
| `TokenValidity.dfy` | `isTokenValid` |
| `TokenExpiry.dfy` | `extractTokenExpiry`, including `split('.')` and its inverse |
| `AuthService.dfy` | `getValidToken`, `authenticate`, `saveTokenToDB` over the single stored credential |
| `QuoteRepository.dfy` | `saveQuoteIfChanged` and `cleanupCache` over the cache, the quote store and the broadcast log |
| `MqttService.dfy` | `normalizeQuote`, the message handler, the watchdog, the client id, and `connectToBroker` success and failure |
| `QuoteMap.dfy` | the `fieldMap` table |
| `QuoteHelper.dfy` | `mapQuoteToInternalFormat` |

Behaviour of the code that the model reproduces and a reader may not expect:

- **Token shape.** `extractTokenExpiry` does not check that a token has three segments. It reads only the second one (`TokenExpiry.OnlyPayloadSegmentMatters`).
- **Non-numeric `exp`.** A truthy but non-numeric `exp` claim is not an error. The expiry comes out as NaN, and a NaN expiry never validates a token (`TokenExpiry.NonNumericClaimYieldsNaN`, `TokenValidity.NaNExpiryInvalid`).
- **Broker URL key.** The broker URL is read from the setting `BROKEN_URL`, as written (`MqttService.BrokerUrlReadFromBrokenKey`).
- **No connect guard and no stopped state.** Connecting while a client is open replaces that client without ending it (`MqttService.ConnectReplacesOpenClient`).
- **Watchdog storm.** A forced reconnect does not reset the silence timer. A channel that stays silent is therefore forced again on every tick (`MqttService.SilenceOutlivesReconnect`).
- **Missing `CLIENT_ID`.** When `CLIENT_ID` is not set, the client id starts with `undefined`, as a template literal prints it.

## Model

| member | source | states |
|---|---|---|
| TokenValidity.IsTokenValid | src/auth/helpers/is-token-valid.helper.ts:9 | `!!token && expiresAt > Date.now()`: a non-empty token whose expiry, compared as a JavaScript number, is after `now` (its meaning is proved in `TokenValidity.ValidIff`) |
| TokenValidity.ValidIff | src/auth/helpers/is-token-valid.helper.ts:9 | a token is valid iff it is non-empty and its expiry is a number strictly greater than `now` |
| TokenValidity.EmptyTokenInvalid | src/auth/helpers/is-token-valid.helper.ts:9 | the empty token is invalid whatever its expiry |
| TokenValidity.ExpiryAtNowInvalid | src/auth/helpers/is-token-valid.helper.ts:9 | the boundary is strict: expiry equal to `now` is invalid |
| TokenValidity.NaNExpiryInvalid | src/auth/helpers/is-token-valid.helper.ts:9 | a NaN expiry never validates a token |
| TokenValidity.ValidEarlier | src/auth/helpers/is-token-valid.helper.ts:9 | monotone in time: valid now implies valid at every earlier instant |
| TokenValidity.ValidWithLaterExpiry | src/auth/helpers/is-token-valid.helper.ts:9 | monotone in expiry: a later expiry keeps a valid token valid |
| TokenExpiry.Split | src/auth/helpers/extract-token-expiry.helper.ts:24 | `split('.')` yields at least one segment, no segment contains `.`, and joining the segments gives the token back |
| TokenExpiry.JoinInjective | src/auth/helpers/extract-token-expiry.helper.ts:24 | two lists of `.`-free segments that join to the same string are equal |
| TokenExpiry.SplitJoin | src/auth/helpers/extract-token-expiry.helper.ts:24 | splitting a join of `.`-free segments returns those segments (round trip) |
| TokenExpiry.ExtractTokenExpiry | src/auth/helpers/extract-token-expiry.helper.ts:14-38 | succeeds iff there is a second `.`-segment, it decodes to claims, and their `exp` is truthy (so `"1700000000"`, `true` and non-numeric strings all succeed); every other case is the one decode error |
| TokenExpiry.ExpiryOfWellFormedToken | src/auth/helpers/extract-token-expiry.helper.ts:24-33 | header.payload.signature with `exp = e` (non-zero) gives `e * 1000` |
| TokenExpiry.SuccessIsClaimTimesThousand | src/auth/helpers/extract-token-expiry.helper.ts:29-33 | on success the payload decoded, `exp` is truthy and the result is `Number(exp) * 1000` |
| TokenExpiry.OnlyPayloadSegmentMatters | src/auth/helpers/extract-token-expiry.helper.ts:24 | changing the header, or adding, removing or changing trailing segments, does not change the result |
| TokenExpiry.NoSeparatorFails | src/auth/helpers/extract-token-expiry.helper.ts:24-36 | a token with no `.` fails with the single decode error |
| TokenExpiry.UndecodablePayloadFails | src/auth/helpers/extract-token-expiry.helper.ts:29-36 | a payload that does not decode to an object fails with the single decode error |
| TokenExpiry.FalsyClaimFails | src/auth/helpers/extract-token-expiry.helper.ts:31-36 | a missing or falsy `exp`, including 0, fails with the single decode error |
| TokenExpiry.NonNumericClaimYieldsNaN | src/auth/helpers/extract-token-expiry.helper.ts:31-33 | a truthy non-numeric `exp` is not rejected: the result is NaN |
| AuthService.Authenticate | src/auth/auth.service.ts:33-63 | missing settings fail with no request; the login request comes first; success iff login gives a token and identity gives an id for that token, with exactly the two requests; once login yields a token the identity request is sent with `Bearer <token>`, whatever its reply; later failures are one AuthenticationFailed |
| AuthService.SaveTokenToDB | src/auth/auth.service.ts:65-78 | the write being assumed to succeed, it succeeds iff the token's expiry decodes; the record is then exactly (token, investorId, decoded expiry); otherwise it fails with TokenDecodeFailed |
| AuthService.GetValidToken | src/auth/auth.service.ts:19-31 | a usable stored credential is returned with no request and no write; otherwise exactly `authenticate`'s requests are made, and the refresh succeeds iff `authenticate` succeeds and the new token's expiry decodes, an `authenticate` failure being passed through; missing config fails with no request; failures never change the store; a success returns what is stored, with expiry from the token |
| AuthService.LoginFailureSkipsIdentity | src/auth/auth.service.ts:43-48 | a failed or token-less login fails after one request, never calls identity, and keeps the store |
| AuthService.MissingInvestorIdFails | src/auth/auth.service.ts:50-62 | an identity reply without an investor id fails as AuthenticationFailed and keeps the store |
| AuthService.UndecodableTokenKeepsStore | src/auth/auth.service.ts:27-28 | an undecodable token's expiry fails the call and leaves the stored record unchanged |
| AuthService.RefreshedCredentialIsReused | src/auth/auth.service.ts:21-25 | after a successful refresh, a later call at which the credential is still valid returns the same session with no request, whatever the endpoints reply |
| AuthService.ExpiredTokenStillReturned | src/auth/auth.service.ts:27-30 | a refresh does not check the new token against the clock: an already expired token is stored and returned |
| QuoteRepository.SaveQuoteIfChanged | src/quotes/repositories/quote.repository.ts:23-57 | if not accepted, nothing changes; if accepted, one broadcast of the quote is appended, the symbol's cache entry becomes (quote, now), its document gains all the quote's fields while keeping the fields the quote lacks and gaining no others (a new document is `{symbol}` plus the quote), and no other entry or document changes |
| QuoteRepository.Accepts | src/quotes/repositories/quote.repository.ts:24-38 | the save goes ahead iff the quote's symbol is truthy (`if (!symbol) return`) and `isChanged` holds against the quote cached for that symbol |
| QuoteRepository.IsChanged | src/quotes/repositories/quote.repository.ts:30-36 | a quote is a change iff nothing is cached for its symbol or some significant field differs (`!==`) from the cached one |
| QuoteRepository.Upsert | src/quotes/repositories/quote.repository.ts:41-45 | the symbol's document gets every field of the quote; an existing document keeps the fields the quote lacks and gains no field beyond the quote's; a new document holds the quote's fields plus `symbol`; other documents are untouched |
| QuoteRepository.OnlySignificantFieldsMatter | src/quotes/repositories/quote.repository.ts:30-36 | quotes agreeing on the symbol and the five significant fields get the same decision |
| QuoteRepository.FirstObservationAccepted | src/quotes/repositories/quote.repository.ts:27-31 | a quote for a symbol not in the cache is always accepted |
| QuoteRepository.MissingSymbolIsNoOp | src/quotes/repositories/quote.repository.ts:24-25 | a quote with a missing or falsy symbol changes nothing |
| QuoteRepository.AgreeingQuoteUnchanged | src/quotes/repositories/quote.repository.ts:30-38 | a quote agreeing with the cached one on the five significant fields, none NaN, is not a change |
| QuoteRepository.SaveIdempotent | src/quotes/repositories/quote.repository.ts:30-51 | once a save has completed, saving the same NaN-free quote again, at any time, changes nothing |
| QuoteRepository.AgreeingFollowUpDropped | src/quotes/repositories/quote.repository.ts:30-51 | after a completed save, a later quote for the same symbol agreeing on the significant fields (none NaN) leaves cache, store and broadcasts as they were |
| QuoteRepository.SaveCachesSignificantFields | src/quotes/repositories/quote.repository.ts:30-51 | after any save of a quote with a symbol, that symbol's cached quote agrees with it on the significant fields |
| QuoteRepository.NaNPriceAlwaysChanged | src/quotes/repositories/quote.repository.ts:32 | a NaN price counts as changed on every save, because NaN is never strictly equal to itself |
| QuoteRepository.SavePreservesConsistent | src/quotes/repositories/quote.repository.ts:41-51 | saving keeps the invariant: every entry is keyed by its quote's truthy symbol, is no newer than the clock, and is reflected in the store |
| QuoteRepository.IsExpired | src/quotes/repositories/quote.repository.ts:64 | an entry is expired iff more than 300000 ms have passed since it was cached (boundaries in `QuoteRepository.EvictionBoundary`) |
| QuoteRepository.CleanupCache | src/quotes/repositories/quote.repository.ts:60-72 | keeps exactly the entries with `now - updatedAt <= 300000`, unchanged; store and broadcasts untouched; `removed` counts the evicted entries |
| QuoteRepository.EvictionPreservesConsistent | src/quotes/repositories/quote.repository.ts:60-68 | eviction keeps the repository invariant |
| QuoteRepository.EvictionBoundary | src/quotes/repositories/quote.repository.ts:16-68 | an entry 6 minutes old is evicted; one exactly 5 minutes or 1 minute old is kept |
| QuoteMap.FieldMapShape | src/quotes/helpers/quote.map.ts:3-20 | 16 entries under 16 distinct keys; StockCode reads symbol |
| QuoteMap.Targets | src/quotes/helpers/quote.map.ts:3-20 | LastPrice and ClosePrice share matchPrice, PriorClosePrice and BasicPrice share referencePrice; 14 distinct fields; matchQuantity, changedRatio and closePrice are not exposed |
| QuoteHelper.Project | src/quotes/helpers/quote.helper.ts:5-11 | the copy loop yields exactly the table's keys, each holding the quote's value of its field |
| QuoteHelper.MapQuoteToInternalFormat | src/quotes/helpers/quote.helper.ts:4-12 | the output's keys are exactly `fieldMap`'s keys, and `out[k] = quote[fieldMap[k]]` |
| QuoteHelper.DependsOnlyOnExposedFields | src/quotes/helpers/quote.helper.ts:7-9 | quotes that agree on the table's fields map to the same output |
| QuoteHelper.IgnoresUnexposedField | src/quotes/helpers/quote.helper.ts:7-9 | changing a field outside the table leaves the output unchanged |
| QuoteHelper.AliasedKeysAgree | src/quotes/helpers/quote.helper.ts:8 | LastPrice = ClosePrice = matchPrice, PriorClosePrice = BasicPrice = referencePrice, StockCode = symbol, for every quote |
| MqttService.Coerce | src/mqtt/mqtt.service.ts:130-133 | undefined iff `Number(v)` is NaN, otherwise that number |
| MqttService.CoerceIdempotent | src/mqtt/mqtt.service.ts:130-133 | coercing a coerced value changes nothing |
| MqttService.NormalizeQuote | src/mqtt/mqtt.service.ts:129-150 | the keys are the raw keys plus the twelve numeric fields; each numeric field is its coercion; every other field passes through |
| MqttService.NormalizedFieldsAreNumbersOrUndefined | src/mqtt/mqtt.service.ts:137-148 | each numeric field ends up undefined or a non-NaN number |
| MqttService.NormalizeIdempotent | src/mqtt/mqtt.service.ts:129-150 | normalising twice is normalising once |
| MqttService.NormalizedSignificantFields | src/mqtt/mqtt.service.ts:137-148 | each significant field of a normalised quote is the number coercion of the raw field, undefined for NaN |
| MqttService.NormalizedHasNoNaN | src/mqtt/mqtt.service.ts:137-148 | a normalised quote has no NaN in the fields change detection compares |
| MqttService.OnMessage | src/mqtt/mqtt.service.ts:108-117 | the arrival time is recorded even when parsing fails; a parse failure changes no quote state; no effect on the connection is ever requested |
| MqttService.UnchangedSignificantFieldsAreDropped | src/mqtt/mqtt.service.ts:108-113 | once the handling of a message for a symbol has completed, a later message for it whose significant fields coerce to the same values (a verbatim repeat included) writes and broadcasts nothing |
| MqttService.NewPriceIsBroadcast | src/mqtt/mqtt.service.ts:108-113 | after any message for a symbol, a message for that symbol with a different price appends exactly one broadcast |
| MqttService.IsStale | src/mqtt/mqtt.service.ts:40-41 | the channel is stale iff more than 30000 ms have passed since the last message (boundaries in `MqttService.WatchdogBoundary`) |
| MqttService.Watchdog | src/mqtt/mqtt.service.ts:38-47 | a tick acts iff `now - lastMessageTime > 30000`; it then ends the client with `force` at most once, and after that connects again exactly once; the tick itself never arms the reconnect timer (the `close` event that `end(true)` raises does, through the left-out close handler) |
| MqttService.WatchdogBoundary | src/mqtt/mqtt.service.ts:40-41 | 30 s or 29 s of silence is tolerated; 31 s forces a reconnect |
| MqttService.Suffix | src/mqtt/mqtt.service.ts:64-66 | the random suffix lies in 1000..1999 |
| MqttService.DecimalRoundTrip | src/mqtt/mqtt.service.ts:64-66 | the suffix's decimal rendering reads back as the same number |
| MqttService.ClientId | src/mqtt/mqtt.service.ts:64-66 | the client id is the configured prefix (`undefined` when unset), `-`, then digits that read back as `Math.floor(random * 1000 + 1000)` |
| MqttService.ClientIdShape | src/mqtt/mqtt.service.ts:64-66 | the client id is the configured prefix, `-`, and four digits reading the suffix |
| MqttService.ClientIdsCanCollide | src/mqtt/mqtt.service.ts:64-66 | two different draws can give the same client id |
| MqttService.ConnectToBroker | src/mqtt/mqtt.service.ts:57-82 | the credential is requested first and its store update kept; a client is opened iff the credential, `BROKEN_URL` and `mqtt.connect` all succeed, with the session as username and password and reconnect period 0; otherwise exactly one reconnect after 5000 ms is armed and the client is unchanged |
| MqttService.AuthFailureSchedulesReconnect | src/mqtt/mqtt.service.ts:57-125 | a credential failure leaves the whole state unchanged and arms one reconnect after 5000 ms |
| MqttService.BrokerUrlReadFromBrokenKey | src/mqtt/mqtt.service.ts:60-62 | a configuration with only `BROKER_URL` never connects and arms a reconnect |
| MqttService.ConnectReplacesOpenClient | src/mqtt/mqtt.service.ts:57-82 | with a client open, a connect attempt never ends it on any path; on success the new client, with a fresh client id, takes its place, and on failure the old client stays |
| MqttService.SilenceOutlivesReconnect | src/mqtt/mqtt.service.ts:12-82 | a connect attempt does not reset `lastMessageTime`, so a silent channel is forced again at the next tick |

## Left out

- MQTT transport and events. The model leaves out `mqtt.connect` beyond the options passed to it and the `connect`/`close`/`offline`/`error` handlers (subscribing on connect, reconnecting on close, ending on error). It also leaves out the real timers and the module init/destroy hooks. These are event-driven library plumbing; the handlers are modelled only through the effects they request.
- Interleaving of message handlers. Each handler is modelled as running to completion before the next message. In the code the handler is async and nothing serialises it: `saveQuoteIfChanged` reads the cache (src/quotes/repositories/quote.repository.ts:27) before awaiting `updateOne` and sets it only afterwards (line 48). So a second identical message that arrives before the first write resolves is written and broadcast too. The "dropped" properties (`QuoteRepository.SaveIdempotent`, `QuoteRepository.AgreeingFollowUpDropped`, `MqttService.UnchangedSignificantFieldsAreDropped`) hold only once the earlier save has finished.
- The reconnect after a watchdog tick. `client.end(true)` raises `close`, whose handler (src/mqtt/mqtt.service.ts:94-97) arms `scheduleReconnect`. In the program a forced reconnect is therefore followed by a second connect 5 s later. That handler is not modelled, so `MqttService.Watchdog` shows only the tick's own effects.
- AuthService.SaveTokenToDB: a rejected `findOneAndUpdate` (src/auth/auth.service.ts:69-77) is not modelled. In the code `getValidToken` then fails with that error and `connectToBroker` arms a reconnect. The model treats the write as always succeeding. A NaN `tokenExpiresAt` (`TokenExpiry.NonNumericClaimYieldsNaN`) may well be such a case, depending on the schema's number cast; the schema is not part of this model.
- MqttService.OnMessage: the cache entry's `updatedAt` is the message's arrival time. In the code it is a second `Date.now()` (src/quotes/repositories/quote.repository.ts:48-51), taken after the awaited `updateOne`, so it can be later. The model uses one clock reading per message; an entry may therefore look up to one write's latency older to `cleanupCache` than it is in the program.
- HTTP and database calls. Their replies are inputs: a login reply, an identity reply as a function of the bearer token, and the stored credential as an optional record. A failure of the database read itself is not modelled.
- Store write failures in `saveQuoteIfChanged`. In the code such an exception escapes before the cache is updated, and the message handler swallows it.
- The quote service between the message handler and the repository is not part of this model. The handler is modelled as calling the repository directly.
- The gateway's socket push. It is modelled only as appending to the broadcast log.
- Floating point. Numbers are NaN or a finite real, with no infinities, no -0 and no rounding. `Number()` on strings is the abstract `Host.parseNumber`; nothing is claimed about which strings parse.
- Base64 and `JSON.parse`. They are the abstract decoders `Host.decodeTokenPayload` and `Host.parseJson`. A JSON primitive that does not throw on field access is treated like an object without the fields read.
- Arrays and objects as field values are compared by content. JavaScript compares them by reference. After normalisation every significant field is a number or undefined, so only an object-valued symbol could tell the two apart.
- Undefined-valued fields in the store. The driver may drop them or store them as null; the model writes them as `Undefined`. Mongoose schema casting and strict mode are not modelled.
- Non-string token or investor id values in the HTTP replies. Only strings are modelled, with the empty string standing for an absent field.
- The identity of the stored credential document. Only its three fields are modelled.
- Logging, including the `removed` count's log line. `removed` is still returned.
- The HTTP query controller.

=== FILE: AuthService.dfy ===
/**
 * The credential cache: one stored record (token, investor id, expiry) reused while valid and
 * otherwise refreshed by a login call followed by an identity call, then upserted.
 *
 * The database holds at most one credential document, so the store is an `Option`; the two
 * HTTP endpoints are given as their replies, and every outbound request is recorded in `calls`.
 */
module AuthService {
  import opened Wrappers
  import opened Js
  import opened Configuration
  import opened TokenValidity
  import opened TokenExpiry

  const AuthUrlKey: string := "AUTH_URL"
  const MeUrlKey: string := "ME_URL"
  const UserKey: string := "USER"
  const PasswordKey: string := "PASSWORD"

  /** The single stored credential document. */
  datatype Credential = Credential(token: string, investorId: string, tokenExpiresAt: Number)

  /** What `getValidToken` hands to its caller. */
  datatype Session = Session(token: string, investorId: string)

  /** The reply of `POST AUTH_URL`; `token` is "" when the body carries none. */
  datatype LoginReply = LoginError | LoginData(token: string)

  /** The reply of `GET ME_URL`; `investorId` is "" when the body carries none. */
  datatype IdentityReply = IdentityError | IdentityData(investorId: string)

  /** The two endpoints. The identity reply may depend on the bearer token sent. */
  datatype Backend = Backend(login: LoginReply, identity: string -> IdentityReply)

  /** An outbound HTTP request. */
  datatype Call =
    | PostLogin(url: string, username: string, password: string)
    | GetIdentity(url: string, authorization: string)

  /** The exceptions `getValidToken` can raise, by message. */
  datatype AuthError =
    | MissingConfig          // "Missing Authentication Infomation in config"
    | AuthenticationFailed   // "Authentication failed"
    | TokenDecodeFailed      // "Failed to decode token expiration"

  /** The result of `authenticate` together with the requests it made. */
  datatype Attempt = Attempt(result: Result<Session, AuthError>, calls: seq<Call>)

  /** The result of `getValidToken`, the store afterwards, and the requests made. */
  datatype Outcome = Outcome(result: Result<Session, AuthError>, stored: Option<Credential>, calls: seq<Call>)

  /** All four settings `authenticate` needs are set and non-empty. */
  predicate AuthConfigured(cfg: Config)
  {
    Present(cfg, AuthUrlKey) && Present(cfg, MeUrlKey) && Present(cfg, UserKey) && Present(cfg, PasswordKey)
  }

  /** The stored credential is there and still usable at `now`. */
  predicate UsableAt(stored: Option<Credential>, now: int)
  {
    stored.Some? && IsTokenValid(stored.value.token, stored.value.tokenExpiresAt, now)
  }

  function SessionOf(c: Credential): Session
  {
    Session(c.token, c.investorId)
  }

  /**
   * `authenticate()`: configuration first, then login, then identity. Any failure once the
   * requests have started is reported as `AuthenticationFailed`.
   */
  function Authenticate(cfg: Config, backend: Backend): (a: Attempt)
    ensures !AuthConfigured(cfg) ==> a == Attempt(Failure(MissingConfig), [])
    ensures AuthConfigured(cfg) ==>
              && |a.calls| >= 1
              && a.calls[0] == PostLogin(cfg[AuthUrlKey], cfg[UserKey], cfg[PasswordKey])
              && (a.result.Failure? ==> a.result.error == AuthenticationFailed)
    ensures (backend.login.LoginError? || backend.login.token == "") ==>
              |a.calls| <= 1 && a.result.Failure?
    ensures a.result.Success? <==>
              && AuthConfigured(cfg)
              && backend.login.LoginData? && backend.login.token != ""
              && backend.identity(backend.login.token).IdentityData?
              && backend.identity(backend.login.token).investorId != ""
    // once login yields a token, the identity request is made with it, whatever the reply
    ensures AuthConfigured(cfg) && backend.login.LoginData? && backend.login.token != "" ==>
              a.calls == [PostLogin(cfg[AuthUrlKey], cfg[UserKey], cfg[PasswordKey]),
                          GetIdentity(cfg[MeUrlKey], "Bearer " + backend.login.token)]
    ensures a.result.Success? ==>
              && a.result.value == Session(backend.login.token, backend.identity(backend.login.token).investorId)
              && a.calls == [PostLogin(cfg[AuthUrlKey], cfg[UserKey], cfg[PasswordKey]),
                             GetIdentity(cfg[MeUrlKey], "Bearer " + backend.login.token)]
  {
    if !AuthConfigured(cfg) then Attempt(Failure(MissingConfig), [])
    else
      var login := PostLogin(cfg[AuthUrlKey], cfg[UserKey], cfg[PasswordKey]);
      match backend.login
      case LoginError => Attempt(Failure(AuthenticationFailed), [login])
      case LoginData(token) =>
        if token == "" then Attempt(Failure(AuthenticationFailed), [login])
        else
          var calls := [login, GetIdentity(cfg[MeUrlKey], "Bearer " + token)];
          match backend.identity(token)
          case IdentityError => Attempt(Failure(AuthenticationFailed), calls)
          case IdentityData(investorId) =>
            if investorId == "" then Attempt(Failure(AuthenticationFailed), calls)
            else Attempt(Success(Session(token, investorId)), calls)
  }

  /**
   * `saveTokenToDB(token, investorId)`: the expiry is computed before the upsert, so a token
   * whose expiry cannot be decoded writes nothing; otherwise the one stored document becomes
   * exactly the new credential.
   */
  function SaveTokenToDB(token: string, investorId: string, host: Host): (r: Result<Credential, AuthError>)
    ensures r.Success? <==> ExtractTokenExpiry(token, host).Success?
    ensures r.Success? ==>
              r.value == Credential(token, investorId, ExtractTokenExpiry(token, host).value)
    ensures r.Failure? ==> r.error == TokenDecodeFailed
  {
    match ExtractTokenExpiry(token, host)
    case Failure(_) => Failure(TokenDecodeFailed)
    case Success(expiry) => Success(Credential(token, investorId, expiry))
  }

  /** `getValidToken()` at time `now`. */
  function GetValidToken(stored: Option<Credential>, now: int, cfg: Config, backend: Backend, host: Host): (o: Outcome)
    // a usable stored credential is returned as is: no request, no write
    ensures UsableAt(stored, now) ==>
              o == Outcome(Success(SessionOf(stored.value)), stored, [])
    // otherwise the refresh is attempted, with exactly the requests `authenticate` makes
    ensures !UsableAt(stored, now) ==> o.calls == Authenticate(cfg, backend).calls
    // missing configuration fails before any request
    ensures !UsableAt(stored, now) && !AuthConfigured(cfg) ==>
              o == Outcome(Failure(MissingConfig), stored, [])
    // a refresh succeeds exactly when `authenticate` succeeds and the new token's expiry decodes
    ensures !UsableAt(stored, now) ==>
              (o.result.Success? <==>
                 && Authenticate(cfg, backend).result.Success?
                 && ExtractTokenExpiry(Authenticate(cfg, backend).result.value.token, host).Success?)
    // a failed `authenticate` is passed through unchanged
    ensures !UsableAt(stored, now) && Authenticate(cfg, backend).result.Failure? ==>
              o.result == Authenticate(cfg, backend).result
    // no failure ever touches the store
    ensures o.result.Failure? ==> o.stored == stored
    // whatever is returned is what is stored
    ensures o.result.Success? ==> o.stored.Some? && o.result.value == SessionOf(o.stored.value)
    // a refreshed credential takes its expiry from the token's own claim
    ensures o.result.Success? && !UsableAt(stored, now) ==>
              && Authenticate(cfg, backend).result == o.result
              && ExtractTokenExpiry(o.stored.value.token, host) == Success(o.stored.value.tokenExpiresAt)
  {
    if UsableAt(stored, now) then Outcome(Success(SessionOf(stored.value)), stored, [])
    else
      var attempt := Authenticate(cfg, backend);
      match attempt.result
      case Failure(e) => Outcome(Failure(e), stored, attempt.calls)
      case Success(session) =>
        match SaveTokenToDB(session.token, session.investorId, host)
        case Failure(e) => Outcome(Failure(e), stored, attempt.calls)
        case Success(credential) => Outcome(Success(session), Some(credential), attempt.calls)
  }

  /** A failed login never reaches the identity endpoint. */
  lemma LoginFailureSkipsIdentity(stored: Option<Credential>, now: int, cfg: Config, backend: Backend, host: Host)
    requires !UsableAt(stored, now) && AuthConfigured(cfg)
    requires backend.login.LoginError? || backend.login.token == ""
    ensures var o := GetValidToken(stored, now, cfg, backend, host);
            && o.result == Failure(AuthenticationFailed)
            && o.calls == [PostLogin(cfg[AuthUrlKey], cfg[UserKey], cfg[PasswordKey])]
            && o.stored == stored
  {
  }

  /** An identity reply without an investor id fails the refresh after both requests. */
  lemma MissingInvestorIdFails(stored: Option<Credential>, now: int, cfg: Config, backend: Backend, host: Host)
    requires !UsableAt(stored, now) && AuthConfigured(cfg)
    requires backend.login.LoginData? && backend.login.token != ""
    requires backend.identity(backend.login.token).IdentityError?
          || backend.identity(backend.login.token).investorId == ""
    ensures var o := GetValidToken(stored, now, cfg, backend, host);
            && o.result == Failure(AuthenticationFailed)
            && |o.calls| == 2
            && o.stored == stored
  {
  }

  /** A login token whose expiry cannot be decoded fails the call and leaves the store as it was. */
  lemma UndecodableTokenKeepsStore(stored: Option<Credential>, now: int, cfg: Config, backend: Backend, host: Host)
    requires !UsableAt(stored, now)
    requires Authenticate(cfg, backend).result.Success?
    requires ExtractTokenExpiry(backend.login.token, host).Failure?
    ensures var o := GetValidToken(stored, now, cfg, backend, host);
            o.result == Failure(TokenDecodeFailed) && o.stored == stored
  {
  }

  /**
   * After a refresh, the next call reuses the new credential without any request as long as
   * it is still valid -- whatever the endpoints would now reply.
   */
  lemma RefreshedCredentialIsReused(stored: Option<Credential>, now: int, later: int, cfg: Config, backend: Backend,
                                    host: Host, cfg': Config, backend': Backend)
    requires GetValidToken(stored, now, cfg, backend, host).result.Success?
    requires UsableAt(GetValidToken(stored, now, cfg, backend, host).stored, later)
    ensures var first := GetValidToken(stored, now, cfg, backend, host);
            GetValidToken(first.stored, later, cfg', backend', host) == Outcome(first.result, first.stored, [])
  {
  }

  /**
   * A refresh does not check the new token against the clock: a token whose claim is already
   * in the past is stored and returned all the same.
   */
  lemma ExpiredTokenStillReturned(stored: Option<Credential>, now: int, cfg: Config, backend: Backend, host: Host)
    requires !UsableAt(stored, now)
    requires Authenticate(cfg, backend).result.Success?
    requires ExtractTokenExpiry(backend.login.token, host) == Success(FromMillis(now - 1))
    ensures var o := GetValidToken(stored, now, cfg, backend, host);
            && o.result.Success?
            && !UsableAt(o.stored, now)
  {
  }
}

=== FILE: Configuration.dfy ===
/** The configuration service as a map from setting name to its string value. */
module Configuration {

  /** Settings as read from the environment; a name that is not set is absent. */
  type Config = map<string, string>

  /** `!!config.get(key)`: the setting exists and is not the empty string. */
  predicate Present(cfg: Config, key: string)
  {
    key in cfg && cfg[key] != ""
  }
}

=== FILE: Js.dfy ===
/**
 * The slice of JavaScript's value semantics the services rely on: numbers that may be NaN,
 * loosely typed field values, plain objects as string-keyed records, truthiness (`!!v`),
 * numeric coercion (`Number(v)`), strict equality (`===`) and the ordering `>`.
 *
 * What the model does not reproduce byte for byte -- the numeric string grammar of `Number`,
 * base64 decoding followed by `JSON.parse`, and `JSON.parse` of an inbound message -- is
 * gathered in `Host` and passed in by callers.
 */
module Js {
  import opened Wrappers

  /** An IEEE double seen only through equality and ordering: NaN or a finite value. */
  datatype Number = NaN | Finite(x: real)

  /** A field value as `JSON.parse` or a spread can leave it in a plain object. */
  datatype Value =
    | Undefined
    | Null
    | Boolean(b: bool)
    | Num(n: Number)
    | Text(s: string)
      /** an array or object; `repr` is what `String(v)` renders it as */
    | Structured(repr: string)

  /** A plain object. A key that is absent reads as `undefined`. */
  type Record = map<string, Value>

  /** The parts of the runtime the model takes as parameters. */
  datatype Host = Host(
    /** `Number(s)` for a string `s` */
    parseNumber: string -> Number,
    /** `JSON.parse(Buffer.from(s, 'base64').toString())`; `None` when it throws or yields a non-object */
    decodeTokenPayload: string -> Option<Record>,
    /** `JSON.parse(s)` of an inbound message; `None` when it throws or yields `null` */
    parseJson: string -> Option<Record>
  )

  /** Property access `r[key]`. */
  function Get(r: Record, key: string): Value
  {
    if key in r then r[key] else Undefined
  }

  /** `!!v`: false exactly for undefined, null, false, 0, NaN and the empty string. */
  predicate Truthy(v: Value)
  {
    match v
    case Undefined => false
    case Null => false
    case Boolean(b) => b
    case Num(n) => n.Finite? && n.x != 0.0
    case Text(s) => s != ""
    case Structured(_) => true
  }

  /** `Number(v)`. An array or object converts through its string rendering. */
  function ToNumber(v: Value, parseNumber: string -> Number): Number
  {
    match v
    case Undefined => NaN
    case Null => Finite(0.0)
    case Boolean(b) => Finite(if b then 1.0 else 0.0)
    case Num(n) => n
    case Text(s) => parseNumber(s)
    case Structured(repr) => parseNumber(repr)
  }

  /** `a === b`: NaN equals nothing, every other value equals exactly itself. */
  predicate StrictEquals(a: Value, b: Value)
  {
    a != Num(NaN) && a == b
  }

  /** `a > b` on numbers: false whenever either side is NaN. */
  predicate GreaterThan(a: Number, b: Number)
  {
    a.Finite? && b.Finite? && a.x > b.x
  }

  /** `n * k` for a finite constant `k`. */
  function Times(n: Number, k: real): Number
  {
    match n
    case NaN => NaN
    case Finite(x) => Finite(x * k)
  }

  /** A millisecond clock reading as a JavaScript number. */
  function FromMillis(ms: int): Number
  {
    Finite(ms as real)
  }
}

=== FILE: MqttService.dfy ===
/**
 * The broker client's decisions: normalising an inbound quote, the message handler, the
 * watchdog that forces a reconnect on a silent channel, the client id, and what a connection
 * attempt does on success and on failure.
 *
 * The transport itself is not modelled. Each handler is a step from the supervisor's state to
 * the next state plus the effects it asks of the outside world (ending the client, connecting
 * again at once, or arming the reconnect timer).
 */
module MqttService {
  import opened Wrappers
  import opened Js
  import opened Configuration
  import opened AuthService
  import opened QuoteRepository

  /** `reconnectDelay`: 5 seconds. */
  const ReconnectDelay: int := 5000

  /** The watchdog's period: every 10 seconds. */
  const HealthCheckPeriod: int := 10000

  /** Silence longer than this (30 seconds) forces a reconnect. */
  const SilenceLimit: int := 30000

  /** The broker URL setting, spelled as the service reads it. */
  const BrokerUrlKey: string := "BROKEN_URL"
  const ClientIdKey: string := "CLIENT_ID"

  /** The twelve fields `normalizeQuote` coerces to numbers, in source order. */
  const NumericFields: seq<string> := [
    "matchPrice", "matchQuantity", "totalVolumeTraded", "listedShares", "referencePrice", "openPrice",
    "closePrice", "averagePrice", "highLimitPrice", "lowLimitPrice", "changedValue", "changedRatio"
  ]

  /** The options passed to `mqtt.connect`. */
  datatype ConnectOptions = ConnectOptions(
    brokerUrl: string, clientId: string, username: string, password: string,
    rejectUnauthorized: bool, protocol: string, reconnectPeriod: int)

  /** What a handler asks of the outside world. */
  datatype Effect =
    | EndClient(force: bool)         // `client.end(force)`
    | ConnectNow                     // `connectToBroker()` without delay
    | ScheduleReconnect(afterMs: int) // `setTimeout(connectToBroker, afterMs)`

  /**
   * The state the handlers share: the current client (the options it was opened with), the
   * time of the last message, the stored credential and the quote repository.
   */
  datatype Supervisor = Supervisor(
    client: Option<ConnectOptions>, lastMessageTime: int,
    credential: Option<Credential>, quotes: Repository)

  datatype Step = Step(next: Supervisor, effects: seq<Effect>)

  // ---------------------------------------------------------------- normalisation

  /** `toNumber(val)`: the number `Number(val)` gives, or `undefined` when that is NaN. */
  function Coerce(v: Value, parseNumber: string -> Number): (r: Value)
    ensures r == Undefined <==> ToNumber(v, parseNumber) == NaN
    ensures r != Undefined ==> r == Num(ToNumber(v, parseNumber)) && r.n.Finite?
  {
    match ToNumber(v, parseNumber)
    case NaN => Undefined
    case Finite(x) => Num(Finite(x))
  }

  /** Already coerced values are fixed points of the coercion. */
  lemma CoerceIdempotent(v: Value, parseNumber: string -> Number)
    ensures Coerce(Coerce(v, parseNumber), parseNumber) == Coerce(v, parseNumber)
  {
  }

  /** `normalizeQuote(raw)`: every field of `raw`, with the twelve numeric ones overwritten by their coercion. */
  function NormalizeQuote(raw: Record, host: Host): (q: Record)
    ensures q.Keys == raw.Keys + (set f | f in NumericFields)
    ensures forall i :: 0 <= i < |NumericFields| ==>
              q[NumericFields[i]] == Coerce(Get(raw, NumericFields[i]), host.parseNumber)
    ensures forall k :: k in raw && k !in NumericFields ==> q[k] == raw[k]
  {
    raw + map f | f in NumericFields :: Coerce(Get(raw, f), host.parseNumber)
  }

  /** Each numeric field ends up either undefined or a number that is not NaN. */
  lemma NormalizedFieldsAreNumbersOrUndefined(raw: Record, host: Host, i: int)
    requires 0 <= i < |NumericFields|
    ensures var v := NormalizeQuote(raw, host)[NumericFields[i]];
            v == Undefined || (v.Num? && v.n.Finite?)
  {
  }

  /** Normalising twice is normalising once. */
  lemma NormalizeIdempotent(raw: Record, host: Host)
    ensures NormalizeQuote(NormalizeQuote(raw, host), host) == NormalizeQuote(raw, host)
  {
  }

  /** A normalised quote carries no NaN in the fields change detection compares. */
  lemma NormalizedHasNoNaN(raw: Record, host: Host)
    ensures NoNaNSignificant(NormalizeQuote(raw, host))
  {
  }

  /** Each significant field of a normalised quote is the coercion of the raw field. */
  lemma NormalizedSignificantFields(raw: Record, host: Host)
    ensures forall i :: 0 <= i < |SignificantFields| ==>
              Get(NormalizeQuote(raw, host), SignificantFields[i]) == Coerce(Get(raw, SignificantFields[i]), host.parseNumber)
  {
  }

  // ---------------------------------------------------------------- inbound messages

  /**
   * The message handler: the arrival time is recorded first; a payload that does not parse is
   * dropped, anything else is normalised and handed to change detection. Nothing here touches
   * the connection.
   */
  function OnMessage(s: Supervisor, now: int, payload: string, host: Host): (st: Step)
    ensures st.next.lastMessageTime == now
    ensures st.effects == []
    ensures st.next.client == s.client && st.next.credential == s.credential
    ensures host.parseJson(payload).None? ==> st.next.quotes == s.quotes
    ensures host.parseJson(payload).Some? ==>
              st.next.quotes == SaveQuoteIfChanged(s.quotes, NormalizeQuote(host.parseJson(payload).value, host), now)
  {
    var arrived := s.(lastMessageTime := now);
    match host.parseJson(payload)
    case None => Step(arrived, [])
    case Some(raw) =>
      Step(arrived.(quotes := SaveQuoteIfChanged(s.quotes, NormalizeQuote(raw, host), now)), [])
  }

  /**
   * After any message for a symbol, a later message for that symbol whose significant fields
   * coerce to the same values -- a verbatim repeat in particular -- is neither written nor
   * broadcast.
   */
  lemma UnchangedSignificantFieldsAreDropped(s: Supervisor, now: int, later: int, payload: string, payload': string,
                                             host: Host, raw: Record, raw': Record)
    requires host.parseJson(payload) == Some(raw) && host.parseJson(payload') == Some(raw')
    requires Get(raw', SymbolField) == Get(raw, SymbolField)
    requires forall i :: 0 <= i < |SignificantFields| ==>
               Coerce(Get(raw', SignificantFields[i]), host.parseNumber)
               == Coerce(Get(raw, SignificantFields[i]), host.parseNumber)
    ensures var first := OnMessage(s, now, payload, host).next;
            OnMessage(first, later, payload', host).next.quotes == first.quotes
  {
    var q, q' := NormalizeQuote(raw, host), NormalizeQuote(raw', host);
    assert SymbolField !in NumericFields;
    NormalizedSignificantFields(raw, host);
    NormalizedSignificantFields(raw', host);
    NormalizedHasNoNaN(raw', host);
    AgreeingFollowUpDropped(s.quotes, q, q', now, later);
  }

  /**
   * After any message for a symbol, a later message for that symbol with a different price is
   * written and broadcast exactly once.
   */
  lemma NewPriceIsBroadcast(s: Supervisor, now: int, later: int, payload: string, payload': string,
                            host: Host, raw: Record, raw': Record)
    requires host.parseJson(payload) == Some(raw) && host.parseJson(payload') == Some(raw')
    requires Truthy(Get(raw, SymbolField)) && Get(raw', SymbolField) == Get(raw, SymbolField)
    requires Coerce(Get(raw', "matchPrice"), host.parseNumber) != Coerce(Get(raw, "matchPrice"), host.parseNumber)
    ensures var first := OnMessage(s, now, payload, host).next;
            var second := OnMessage(first, later, payload', host).next;
            second.quotes.broadcasts == first.quotes.broadcasts + [NormalizeQuote(raw', host)]
  {
    var q, q' := NormalizeQuote(raw, host), NormalizeQuote(raw', host);
    assert SymbolField !in NumericFields;
    assert NumericFields[0] == "matchPrice";
    NormalizedHasNoNaN(raw, host);
    var r1 := SaveQuoteIfChanged(s.quotes, q, now);
    SaveCachesSignificantFields(s.quotes, q, now);
    var symbol := Get(q, SymbolField);
    assert Get(q', SymbolField) == symbol;
    assert Differs(r1.cache[symbol].data, q', "matchPrice");
  }

  // ---------------------------------------------------------------- watchdog

  /** The channel has been silent for more than 30 seconds. */
  predicate IsStale(now: int, lastMessageTime: int)
  {
    now - lastMessageTime > SilenceLimit
  }

  /** One watchdog tick: on a stale channel, force-close the client (if any) and connect again at once. */
  function Watchdog(s: Supervisor, now: int): (effects: seq<Effect>)
    ensures effects != [] <==> IsStale(now, s.lastMessageTime)
    ensures effects != [] ==> effects[|effects| - 1] == ConnectNow
    ensures EndClient(true) in effects <==> IsStale(now, s.lastMessageTime) && s.client.Some?
    ensures forall d :: ScheduleReconnect(d) !in effects
    // at most one forced end, and it comes before the single reconnect
    ensures |effects| <= 2 && forall i :: 0 <= i < |effects| - 1 ==> effects[i] == EndClient(true)
  {
    if !IsStale(now, s.lastMessageTime) then []
    else (if s.client.Some? then [EndClient(true)] else []) + [ConnectNow]
  }

  /** Exactly 30 seconds of silence is tolerated; 31 seconds forces a reconnect, 29 does not. */
  lemma WatchdogBoundary(s: Supervisor)
    ensures Watchdog(s, s.lastMessageTime + SilenceLimit) == []
    ensures Watchdog(s, s.lastMessageTime + 31000) != []
    ensures Watchdog(s, s.lastMessageTime + 29000) == []
  {
  }

  // ---------------------------------------------------------------- client id

  function DigitChar(d: nat): char
    requires d < 10
  {
    ('0' as int + d) as char
  }

  predicate IsDigit(c: char)
  {
    '0' <= c <= '9'
  }

  /** The decimal rendering of a natural number, as a template literal prints it. */
  function Decimal(n: nat): (s: string)
    ensures |s| >= 1 && forall i :: 0 <= i < |s| ==> IsDigit(s[i])
  {
    if n < 10 then [DigitChar(n)] else Decimal(n / 10) + [DigitChar(n % 10)]
  }

  /** Reads a string of decimal digits back as a number. */
  function DecimalValue(s: string): nat
    requires forall i :: 0 <= i < |s| ==> IsDigit(s[i])
  {
    if |s| == 0 then 0
    else
      var last := s[|s| - 1];
      assert IsDigit(last);
      DecimalValue(s[..|s| - 1]) * 10 + (last as int - '0' as int)
  }

  /** Printing then reading a number gives the number back. */
  lemma {:induction false} DecimalRoundTrip(n: nat)
    ensures DecimalValue(Decimal(n)) == n
  {
    if n >= 10 {
      DecimalRoundTrip(n / 10);
      var s := Decimal(n);
      assert s[..|s| - 1] == Decimal(n / 10);
    }
  }

  /** Four-digit numbers print as four characters. */
  lemma FourDigits(n: nat)
    requires 1000 <= n <= 9999
    ensures |Decimal(n)| == 4
  {
    assert |Decimal(n / 1000)| == 1;
    assert |Decimal(n / 100)| == 2 by { assert (n / 100) / 10 == n / 1000; }
    assert |Decimal(n / 10)| == 3 by { assert (n / 10) / 10 == n / 100; }
  }

  /** `Math.floor(random * 1000 + 1000)` for a draw `0 <= random < 1`. */
  function Suffix(random: real): (n: int)
    requires 0.0 <= random < 1.0
    ensures 1000 <= n <= 1999
  {
    (random * 1000.0 + 1000.0).Floor
  }

  /** The configured client id as a template literal renders it: a missing setting prints "undefined". */
  function ClientPrefix(cfg: Config): string
  {
    if ClientIdKey in cfg then cfg[ClientIdKey] else "undefined"
  }

  /** `${CLIENT_ID}-${suffix}`. */
  function ClientId(cfg: Config, random: real): (id: string)
    requires 0.0 <= random < 1.0
    ensures |id| > |ClientPrefix(cfg)| && id[..|ClientPrefix(cfg)| + 1] == ClientPrefix(cfg) + "-"
    ensures forall i :: |ClientPrefix(cfg)| < i < |id| ==> IsDigit(id[i])
    ensures DecimalValue(id[|ClientPrefix(cfg)| + 1..]) == Suffix(random)
  {
    var prefix, digits := ClientPrefix(cfg) + "-", Decimal(Suffix(random));
    DecimalRoundTrip(Suffix(random));
    assert (prefix + digits)[|prefix|..] == digits;
    prefix + digits
  }

  /** The client id is the configured prefix, a dash, and four digits reading a number in 1000..1999. */
  lemma ClientIdShape(cfg: Config, random: real)
    requires 0.0 <= random < 1.0
    ensures var id, p := ClientId(cfg, random), |ClientPrefix(cfg)|;
            && |id| == p + 5
            && id[..p] == ClientPrefix(cfg)
            && id[p] == '-'
            && (forall i :: p < i < |id| ==> IsDigit(id[i]))
            && 1000 <= DecimalValue(id[p + 1..]) <= 1999
            && DecimalValue(id[p + 1..]) == Suffix(random)
  {
    var n := Suffix(random);
    FourDigits(n);
    DecimalRoundTrip(n);
    var id, p := ClientId(cfg, random), |ClientPrefix(cfg)|;
    assert id[p + 1..] == Decimal(n);
  }

  /** Only a thousand ids exist per prefix: draws a thousandth apart can collide. */
  lemma ClientIdsCanCollide(cfg: Config)
    ensures ClientId(cfg, 0.0) == ClientId(cfg, 0.0005)
  {
    assert Suffix(0.0) == 1000 == Suffix(0.0005);
  }

  // ---------------------------------------------------------------- connecting

  /** The attempt ended with a new client and no retry. */
  predicate Opened(st: Step)
  {
    st.effects == [] && st.next.client.Some?
  }

  /**
   * `connectToBroker()`: obtain a credential, read the broker URL, build the client id and
   * open the client. Any failure -- from the credential, a missing URL, or `mqtt.connect`
   * throwing (`connectThrows`) -- arms exactly one reconnect after `ReconnectDelay`.
   */
  function ConnectToBroker(s: Supervisor, now: int, cfg: Config, backend: Backend, host: Host,
                           random: real, connectThrows: bool): (st: Step)
    requires 0.0 <= random < 1.0
    // the credential is always requested first, and whatever it stored stays stored
    ensures st.next.credential == GetValidToken(s.credential, now, cfg, backend, host).stored
    ensures st.next.lastMessageTime == s.lastMessageTime && st.next.quotes == s.quotes
    ensures Opened(st) <==>
              && GetValidToken(s.credential, now, cfg, backend, host).result.Success?
              && Present(cfg, BrokerUrlKey)
              && !connectThrows
    ensures !Opened(st) ==> st.effects == [ScheduleReconnect(ReconnectDelay)] && st.next.client == s.client
    ensures Opened(st) ==>
              var session := GetValidToken(s.credential, now, cfg, backend, host).result.value;
              st.next.client == Some(ConnectOptions(cfg[BrokerUrlKey], ClientId(cfg, random),
                                                    session.investorId, session.token, false, "wss", 0))
  {
    var auth := GetValidToken(s.credential, now, cfg, backend, host);
    var s1 := s.(credential := auth.stored);
    match auth.result
    case Failure(_) => Step(s1, [ScheduleReconnect(ReconnectDelay)])
    case Success(session) =>
      if !Present(cfg, BrokerUrlKey) || connectThrows then Step(s1, [ScheduleReconnect(ReconnectDelay)])
      else
        var options := ConnectOptions(cfg[BrokerUrlKey], ClientId(cfg, random),
                                      session.investorId, session.token, false, "wss", 0);
        Step(s1.(client := Some(options)), [])
  }

  /** A failed credential request arms one reconnect and leaves the client as it was. */
  lemma AuthFailureSchedulesReconnect(s: Supervisor, now: int, cfg: Config, backend: Backend, host: Host,
                                      random: real, connectThrows: bool)
    requires 0.0 <= random < 1.0
    requires GetValidToken(s.credential, now, cfg, backend, host).result.Failure?
    ensures ConnectToBroker(s, now, cfg, backend, host, random, connectThrows)
         == Step(s, [ScheduleReconnect(5000)])
  {
  }

  /** The URL is read from BROKEN_URL: a configuration that sets only BROKER_URL never connects. */
  lemma BrokerUrlReadFromBrokenKey(s: Supervisor, now: int, cfg: Config, backend: Backend, host: Host,
                                   random: real)
    requires 0.0 <= random < 1.0
    requires "BROKER_URL" in cfg && BrokerUrlKey !in cfg
    ensures ConnectToBroker(s, now, cfg, backend, host, random, false).effects == [ScheduleReconnect(5000)]
  {
  }

  /**
   * There is no single-flight guard: a connect attempt never ends the client that is open, on
   * any path, and when it succeeds the new client simply takes the old one's place.
   */
  lemma ConnectReplacesOpenClient(s: Supervisor, now: int, cfg: Config, backend: Backend, host: Host,
                                  random: real, connectThrows: bool)
    requires 0.0 <= random < 1.0
    requires s.client.Some?
    ensures var st := ConnectToBroker(s, now, cfg, backend, host, random, connectThrows);
            && (forall f :: EndClient(f) !in st.effects)
            && (Opened(st) ==> st.next.client.value.clientId == ClientId(cfg, random))
            && (!Opened(st) ==> st.next.client == s.client)
  {
  }

  /**
   * Connecting does not reset the silence timer: on a channel that stays silent, the next tick
   * forces another reconnect.
   */
  lemma SilenceOutlivesReconnect(s: Supervisor, now: int, cfg: Config, backend: Backend, host: Host,
                                 random: real, connectThrows: bool)
    requires 0.0 <= random < 1.0
    requires Watchdog(s, now) != []
    ensures var st := ConnectToBroker(s, now, cfg, backend, host, random, connectThrows);
            Watchdog(st.next, now + HealthCheckPeriod) != []
  {
  }
}

=== FILE: QuoteHelper.dfy ===
/** `mapQuoteToInternalFormat`: a stored quote projected onto the external API keys. */
module QuoteHelper {
  import opened Js
  import opened QuoteMap

  /** Copies `quote[field]` to `key` for each entry, in table order, into a fresh record. */
  function Project(table: seq<(string, string)>, quote: Record): (out: Record)
    requires KeysDistinct(table)
    ensures out.Keys == KeysOf(table)
    ensures forall i :: 0 <= i < |table| ==> out[table[i].0] == Get(quote, table[i].1)
  {
    if |table| == 0 then map[]
    else
      var init := table[..|table| - 1];
      var last := table[|table| - 1];
      assert Keys(table) == Keys(init) + [last.0];
      Project(init, quote)[last.0 := Get(quote, last.1)]
  }

  /** The external form of a quote. */
  function MapQuoteToInternalFormat(quote: Record): (out: Record)
    ensures out.Keys == KeysOf(FieldMap)
    ensures forall i :: 0 <= i < |FieldMap| ==> out[FieldMap[i].0] == Get(quote, FieldMap[i].1)
  {
    FieldMapShape();
    Project(FieldMap, quote)
  }

  /** The result reads only the fields the table names: quotes agreeing there map alike. */
  lemma DependsOnlyOnExposedFields(quote: Record, other: Record)
    requires forall f :: f in TargetsOf(FieldMap) ==> Get(quote, f) == Get(other, f)
    ensures MapQuoteToInternalFormat(quote) == MapQuoteToInternalFormat(other)
  {
  }

  /** Changing a field the table does not name (matchQuantity, say) leaves the result unchanged. */
  lemma IgnoresUnexposedField(quote: Record, field: string, v: Value)
    requires field !in TargetsOf(FieldMap)
    ensures MapQuoteToInternalFormat(quote[field := v]) == MapQuoteToInternalFormat(quote)
  {
  }

  /** LastPrice and ClosePrice always agree, as do PriorClosePrice and BasicPrice; StockCode is the symbol. */
  lemma AliasedKeysAgree(quote: Record)
    ensures var out := MapQuoteToInternalFormat(quote);
            && "LastPrice" in out && "ClosePrice" in out
            && Get(out, "LastPrice") == Get(out, "ClosePrice") == Get(quote, "matchPrice")
            && "PriorClosePrice" in out && "BasicPrice" in out
            && Get(out, "PriorClosePrice") == Get(out, "BasicPrice") == Get(quote, "referencePrice")
            && "StockCode" in out && Get(out, "StockCode") == Get(quote, "symbol")
  {
    var out := MapQuoteToInternalFormat(quote);
    assert out[FieldMap[0].0] == Get(quote, FieldMap[0].1);
    assert out[FieldMap[3].0] == Get(quote, FieldMap[3].1);
    assert out[FieldMap[11].0] == Get(quote, FieldMap[11].1);
    assert out[FieldMap[14].0] == Get(quote, FieldMap[14].1);
    assert out[FieldMap[15].0] == Get(quote, FieldMap[15].1);
  }
}

=== FILE: QuoteMap.dfy ===
/** `fieldMap`: the external API key for each exposed quote field, in declaration order. */
module QuoteMap {

  /** (external key, quote field) pairs, in the order `Object.entries` yields them. */
  const FieldMap: seq<(string, string)> := [
    ("StockCode", "symbol"),
    ("TradingDate", "tradingTime"),
    ("KLCPLH", "listedShares"),
    ("PriorClosePrice", "referencePrice"),
    ("CeilingPrice", "highLimitPrice"),
    ("FloorPrice", "lowLimitPrice"),
    ("TotalVol", "totalVolumeTraded"),
    ("TotalVal", "matchValue"),
    ("HighestPrice", "highestPrice"),
    ("LowestPrice", "lowestPrice"),
    ("OpenPrice", "openPrice"),
    ("LastPrice", "matchPrice"),
    ("AvrPrice", "averagePrice"),
    ("Change", "changedValue"),
    ("ClosePrice", "matchPrice"),
    ("BasicPrice", "referencePrice")
  ]

  /** No external key occurs twice (an object literal has one value per key). */
  predicate KeysDistinct(table: seq<(string, string)>)
  {
    forall i, j :: 0 <= i < j < |table| ==> table[i].0 != table[j].0
  }

  /** The external keys, in table order. */
  function Keys(table: seq<(string, string)>): (ks: seq<string>)
    ensures |ks| == |table| && forall i :: 0 <= i < |table| ==> ks[i] == table[i].0
  {
    seq(|table|, i requires 0 <= i < |table| => table[i].0)
  }

  /** The quote fields read, in table order (with repetitions). */
  function Fields(table: seq<(string, string)>): (fs: seq<string>)
    ensures |fs| == |table| && forall i :: 0 <= i < |table| ==> fs[i] == table[i].1
  {
    seq(|table|, i requires 0 <= i < |table| => table[i].1)
  }

  function KeysOf(table: seq<(string, string)>): set<string>
  {
    set k | k in Keys(table)
  }

  function TargetsOf(table: seq<(string, string)>): set<string>
  {
    set f | f in Fields(table)
  }

  /** The quote fields the table reads, each once. */
  const ExposedFields: seq<string> := [
    "symbol", "tradingTime", "listedShares", "referencePrice", "highLimitPrice", "lowLimitPrice",
    "totalVolumeTraded", "matchValue", "highestPrice", "lowestPrice", "openPrice", "matchPrice",
    "averagePrice", "changedValue"
  ]

  /** A sequence without repetitions has as many elements as its length. */
  lemma {:induction false} DistinctCount(xs: seq<string>)
    requires forall i, j :: 0 <= i < j < |xs| ==> xs[i] != xs[j]
    ensures |set x | x in xs| == |xs|
  {
    if |xs| > 0 {
      var init := xs[..|xs| - 1];
      DistinctCount(init);
      var last := xs[|xs| - 1];
      assert xs == init + [last];
      assert (set x | x in xs) == (set x | x in init) + {last};
      assert last !in init;
    }
  }

  /** Sixteen entries under sixteen distinct keys; StockCode reads symbol. */
  lemma FieldMapShape()
    ensures |FieldMap| == 16
    ensures KeysDistinct(FieldMap)
    ensures |KeysOf(FieldMap)| == 16
    ensures FieldMap[0] == ("StockCode", "symbol")
  {
    DistinctCount(Keys(FieldMap));
  }

  /**
   * The table is not injective: LastPrice and ClosePrice both read matchPrice, PriorClosePrice
   * and BasicPrice both read referencePrice, so only fourteen fields are exposed, and
   * matchQuantity, changedRatio and closePrice are not among them.
   */
  lemma Targets()
    ensures FieldMap[11].1 == FieldMap[14].1 == "matchPrice"
    ensures FieldMap[3].1 == FieldMap[15].1 == "referencePrice"
    ensures TargetsOf(FieldMap) == set f | f in ExposedFields
    ensures |TargetsOf(FieldMap)| == 14
    ensures "matchQuantity" !in TargetsOf(FieldMap)
    ensures "changedRatio" !in TargetsOf(FieldMap)
    ensures "closePrice" !in TargetsOf(FieldMap)
  {
    var fs := Fields(FieldMap);
    assert fs == ExposedFields[..14] + ["matchPrice", "referencePrice"];
    assert ExposedFields[..14] == ExposedFields;
    DistinctCount(ExposedFields);
  }
}

=== FILE: QuoteRepository.dfy ===
/**
 * Change detection in front of the quote store: an in-memory map from symbol to the last
 * accepted quote and the time it was accepted. Only a new symbol or a change in one of five
 * significant fields reaches the store and the broadcast log; stale entries are evicted.
 */
module QuoteRepository {
  import opened Wrappers
  import opened Js

  const SymbolField: string := "symbol"

  /** The cache time-to-live: 5 minutes in milliseconds. */
  const CacheTtl: int := 5 * 60 * 1000

  /** The fields compared against the cached quote, in the order the comparison reads them. */
  const SignificantFields: seq<string> :=
    ["matchPrice", "totalVolumeTraded", "matchQuantity", "changedValue", "changedRatio"]

  datatype CachedQuote = CachedQuote(data: Record, updatedAt: int)

  /**
   * The repository's world: the cache, the quote collection keyed by symbol, and every quote
   * handed to the gateway's `sendQuoteUpdate`, oldest first.
   */
  datatype Repository = Repository(cache: map<Value, CachedQuote>, store: map<Value, Record>, broadcasts: seq<Record>)

  /** The field differs between the cached quote and the new one (`!==`). */
  predicate Differs(cached: Record, data: Record, field: string)
  {
    !StrictEquals(Get(cached, field), Get(data, field))
  }

  /**
   * `isChanged`: there is no cached quote, or one of the significant fields differs from it,
   * tested in the order of `SignificantFields`.
   */
  predicate IsChanged(cached: Option<Record>, data: Record)
    ensures cached.None? ==> IsChanged(cached, data)
    ensures cached.Some? ==>
              (IsChanged(cached, data)
               <==> exists i :: 0 <= i < |SignificantFields| && Differs(cached.value, data, SignificantFields[i]))
  {
    || cached.None?
    || Differs(cached.value, data, SignificantFields[0])
    || Differs(cached.value, data, SignificantFields[1])
    || Differs(cached.value, data, SignificantFields[2])
    || Differs(cached.value, data, SignificantFields[3])
    || Differs(cached.value, data, SignificantFields[4])
  }

  /** The quote cached for `symbol`, if any. */
  function CachedData(r: Repository, symbol: Value): Option<Record>
  {
    if symbol in r.cache then Some(r.cache[symbol].data) else None
  }

  /** `saveQuoteIfChanged` would write and broadcast `data`. */
  predicate Accepts(r: Repository, data: Record)
  {
    var symbol := Get(data, SymbolField);
    Truthy(symbol) && IsChanged(CachedData(r, symbol), data)
  }

  /**
   * `updateOne({symbol}, {$set: data}, {upsert: true})`: the fields of `data` are set on the
   * document for `symbol`, created as `{symbol}` when there is none; other fields are kept.
   */
  function Upsert(store: map<Value, Record>, symbol: Value, data: Record): (store': map<Value, Record>)
    ensures store'.Keys == store.Keys + {symbol}
    ensures forall s :: s in store && s != symbol ==> store'[s] == store[s]
    ensures forall k :: k in data ==> k in store'[symbol] && store'[symbol][k] == data[k]
    // `$set` keeps every field of an existing document that the update does not name
    ensures symbol in store ==>
              forall k :: k in store[symbol] && k !in data ==> k in store'[symbol] && store'[symbol][k] == store[symbol][k]
    // ... and gains no field beyond those of `data`
    ensures symbol in store ==> store'[symbol].Keys == store[symbol].Keys + data.Keys
    // a new document holds the filter's `symbol` and then the fields set
    ensures symbol !in store ==> store'[symbol].Keys == data.Keys + {SymbolField}
    ensures symbol !in store && SymbolField !in data ==> store'[symbol][SymbolField] == symbol
  {
    var previous := if symbol in store then store[symbol] else map[SymbolField := symbol];
    store[symbol := previous + data]
  }

  /** The document holds every field of `data` with the same value. */
  predicate Reflects(doc: Record, data: Record)
  {
    forall k :: k in data ==> k in doc && doc[k] == data[k]
  }

  /** `saveQuoteIfChanged(data)` at time `now`. */
  function SaveQuoteIfChanged(r: Repository, data: Record, now: int): (r': Repository)
    // not accepted: nothing at all changes
    ensures !Accepts(r, data) ==> r' == r
    // accepted: one broadcast of `data` is appended, nothing else in the log changes
    ensures Accepts(r, data) ==> r'.broadcasts == r.broadcasts + [data]
    // accepted: the symbol's cache entry is (data, now) and no other entry changes
    ensures Accepts(r, data) ==>
              && r'.cache.Keys == r.cache.Keys + {Get(data, SymbolField)}
              && r'.cache[Get(data, SymbolField)] == CachedQuote(data, now)
              && forall s :: s in r.cache && s != Get(data, SymbolField) ==> r'.cache[s] == r.cache[s]
    // accepted: the symbol's document now holds all of `data`; other documents are untouched
    ensures Accepts(r, data) ==>
              && r'.store.Keys == r.store.Keys + {Get(data, SymbolField)}
              && Reflects(r'.store[Get(data, SymbolField)], data)
              && forall s :: s in r.store && s != Get(data, SymbolField) ==> r'.store[s] == r.store[s]
    // accepted: the fields of an existing document that the quote lacks are kept (`$set`)
    ensures Accepts(r, data) && Get(data, SymbolField) in r.store ==>
              var doc, doc' := r.store[Get(data, SymbolField)], r'.store[Get(data, SymbolField)];
              && (forall k :: k in doc && k !in data ==> k in doc' && doc'[k] == doc[k])
              && doc'.Keys == doc.Keys + data.Keys
    // accepted: a new document is `{symbol}` together with the quote's fields (upsert)
    ensures Accepts(r, data) && Get(data, SymbolField) !in r.store ==>
              r'.store[Get(data, SymbolField)] == map[SymbolField := Get(data, SymbolField)] + data
  {
    var symbol := Get(data, SymbolField);
    if !Truthy(symbol) then r
    else if !IsChanged(CachedData(r, symbol), data) then r
    else Repository(r.cache[symbol := CachedQuote(data, now)], Upsert(r.store, symbol, data), r.broadcasts + [data])
  }

  /** No significant field of the quote holds NaN, as after `normalizeQuote`. */
  predicate NoNaNSignificant(data: Record)
  {
    forall i :: 0 <= i < |SignificantFields| ==> Get(data, SignificantFields[i]) != Num(NaN)
  }

  /** Two quotes that agree on symbol and on the significant fields get the same decision. */
  lemma OnlySignificantFieldsMatter(r: Repository, data: Record, other: Record)
    requires Get(data, SymbolField) == Get(other, SymbolField)
    requires forall i :: 0 <= i < |SignificantFields| ==> Get(data, SignificantFields[i]) == Get(other, SignificantFields[i])
    ensures Accepts(r, data) <==> Accepts(r, other)
  {
  }

  /** The first quote for a symbol the cache does not hold is always written and broadcast. */
  lemma FirstObservationAccepted(r: Repository, data: Record)
    requires Truthy(Get(data, SymbolField))
    requires Get(data, SymbolField) !in r.cache
    ensures Accepts(r, data)
  {
  }

  /** A quote without a (truthy) symbol is dropped. */
  lemma MissingSymbolIsNoOp(r: Repository, data: Record, now: int)
    requires !Truthy(Get(data, SymbolField))
    ensures SaveQuoteIfChanged(r, data, now) == r
  {
  }

  /**
   * A quote that agrees with the cached one on every significant field, none of them NaN, is
   * not a change; in particular no NaN-free quote is a change from itself.
   */
  lemma AgreeingQuoteUnchanged(cached: Record, data: Record)
    requires forall i :: 0 <= i < |SignificantFields| ==>
               Get(cached, SignificantFields[i]) == Get(data, SignificantFields[i])
    requires NoNaNSignificant(data)
    ensures !IsChanged(Some(cached), data)
  {
  }

  /** Saving the same quote twice in a row: the second save changes nothing, at any later time. */
  lemma SaveIdempotent(r: Repository, data: Record, now: int, later: int)
    requires NoNaNSignificant(data)
    ensures var r1 := SaveQuoteIfChanged(r, data, now);
            SaveQuoteIfChanged(r1, data, later) == r1
  {
    var r1 := SaveQuoteIfChanged(r, data, now);
    if Accepts(r, data) {
      AgreeingQuoteUnchanged(data, data);
      assert CachedData(r1, Get(data, SymbolField)) == Some(data);
    }
  }

  /**
   * Whether or not a quote with a symbol is accepted, afterwards the cache holds, for that
   * symbol, a quote agreeing with it on every significant field.
   */
  lemma SaveCachesSignificantFields(r: Repository, data: Record, now: int)
    requires Truthy(Get(data, SymbolField))
    ensures var r', symbol := SaveQuoteIfChanged(r, data, now), Get(data, SymbolField);
            && symbol in r'.cache
            && forall i :: 0 <= i < |SignificantFields| ==>
                 Get(r'.cache[symbol].data, SignificantFields[i]) == Get(data, SignificantFields[i])
  {
  }

  /**
   * After a quote for a symbol is saved, a later quote for the same symbol agreeing with it on
   * the significant fields, none of them NaN, changes nothing.
   */
  lemma AgreeingFollowUpDropped(r: Repository, data: Record, other: Record, now: int, later: int)
    requires Get(other, SymbolField) == Get(data, SymbolField)
    requires forall i :: 0 <= i < |SignificantFields| ==>
               Get(data, SignificantFields[i]) == Get(other, SignificantFields[i])
    requires NoNaNSignificant(other)
    ensures var r1 := SaveQuoteIfChanged(r, data, now);
            SaveQuoteIfChanged(r1, other, later) == r1
  {
    var symbol := Get(data, SymbolField);
    if Truthy(symbol) {
      var r1 := SaveQuoteIfChanged(r, data, now);
      SaveCachesSignificantFields(r, data, now);
      AgreeingQuoteUnchanged(r1.cache[symbol].data, other);
      assert CachedData(r1, symbol) == Some(r1.cache[symbol].data);
    }
  }

  /** A NaN price (`NaN !== NaN`) makes the same quote count as changed again on every save. */
  lemma NaNPriceAlwaysChanged(r: Repository, data: Record, now: int)
    requires Truthy(Get(data, SymbolField))
    requires Get(data, "matchPrice") == Num(NaN)
    ensures var r1 := SaveQuoteIfChanged(r, data, now);
            Accepts(r1, data) && |SaveQuoteIfChanged(r1, data, now).broadcasts| == |r.broadcasts| + 2
  {
  }

  /**
   * The repository invariant: every cache entry is keyed by the truthy symbol of its quote,
   * was accepted no later than `now`, and the store holds a document reflecting it.
   */
  ghost predicate Consistent(r: Repository, now: int)
  {
    forall s :: s in r.cache ==>
      && Truthy(s)
      && Get(r.cache[s].data, SymbolField) == s
      && r.cache[s].updatedAt <= now
      && s in r.store
      && Reflects(r.store[s], r.cache[s].data)
  }

  /** Saving keeps the invariant, and the clock moving forward keeps it too. */
  lemma SavePreservesConsistent(r: Repository, data: Record, now: int, later: int)
    requires Consistent(r, now)
    requires now <= later
    ensures Consistent(SaveQuoteIfChanged(r, data, later), later)
  {
  }

  /** The entry has outlived the TTL: `now - updatedAt > cacheTTL`. */
  predicate IsExpired(entry: CachedQuote, now: int)
  {
    now - entry.updatedAt > CacheTtl
  }

  /** The cache with every expired entry removed. */
  function Unexpired(cache: map<Value, CachedQuote>, now: int): map<Value, CachedQuote>
  {
    map s | s in cache && !IsExpired(cache[s], now) :: cache[s]
  }

  /**
   * `cleanupCache()` at time `now`: visits every entry once and deletes the expired ones.
   * `removed` is the count the source logs.
   */
  method CleanupCache(r: Repository, now: int) returns (r': Repository, removed: nat)
    ensures forall s :: s in r'.cache <==> s in r.cache && now - r.cache[s].updatedAt <= CacheTtl
    ensures forall s :: s in r'.cache ==> r'.cache[s] == r.cache[s]
    ensures r'.cache == Unexpired(r.cache, now)
    ensures r'.store == r.store && r'.broadcasts == r.broadcasts
    ensures removed == |r.cache| - |r'.cache|
  {
    var kept := r.cache;
    var pending := r.cache.Keys;
    removed := 0;
    while pending != {}
      invariant pending <= kept.Keys <= r.cache.Keys
      invariant forall s :: s in kept ==> kept[s] == r.cache[s]
      invariant forall s :: s in r.cache && s !in pending ==> (s in kept <==> !IsExpired(r.cache[s], now))
      invariant removed + |kept| == |r.cache|
      decreases pending
    {
      var s :| s in pending;
      if IsExpired(kept[s], now) {
        assert |kept.Keys - {s}| == |kept.Keys| - 1;
        kept := kept - {s};
        removed := removed + 1;
      }
      pending := pending - {s};
    }
    r' := r.(cache := kept);
  }

  /** Eviction never breaks the repository invariant. */
  lemma EvictionPreservesConsistent(r: Repository, now: int)
    requires Consistent(r, now)
    ensures Consistent(r.(cache := Unexpired(r.cache, now)), now)
  {
  }

  /** The TTL boundary: an entry six minutes old goes, one aged exactly five minutes or one minute stays. */
  lemma EvictionBoundary(data: Record, now: int)
    ensures IsExpired(CachedQuote(data, now - 6 * 60 * 1000), now)
    ensures !IsExpired(CachedQuote(data, now - CacheTtl), now)
    ensures !IsExpired(CachedQuote(data, now - 60 * 1000), now)
  {
  }
}

=== FILE: TokenExpiry.dfy ===
/**
 * Reading the expiration claim (`exp`, section 4.1.4 of RFC 7519) out of a JSON Web Token and
 * turning its seconds into milliseconds.
 */
module TokenExpiry {
  import opened Wrappers
  import opened Js

  const Separator: char := '.'

  /** The claim read from the payload. */
  const ExpClaim: string := "exp"

  /** Every failure is reported as this one kind: "Failed to decode token expiration". */
  datatype DecodeError = DecodeFailed

  /** Joins the segments with the separator; the inverse of `Split`. */
  function Join(parts: seq<string>): string
    requires |parts| >= 1
  {
    if |parts| == 1 then parts[0] else parts[0] + [Separator] + Join(parts[1..])
  }

  /** `s.split('.')`: the maximal separator-free pieces of `s`, in order. */
  function Split(s: string): (parts: seq<string>)
    ensures |parts| >= 1
    ensures forall i :: 0 <= i < |parts| ==> Separator !in parts[i]
    ensures Join(parts) == s
  {
    if |s| == 0 then [""]
    else
      var rest := Split(s[1..]);
      if s[0] == Separator then
        assert ([""] + rest)[1..] == rest;
        [""] + rest
      else
        var parts := [[s[0]] + rest[0]] + rest[1..];
        assert parts[1..] == rest[1..];
        assert s == [s[0]] + s[1..];
        parts
  }

  /** The index of the first separator in `s`, or `|s|` when there is none. */
  function FirstSeparator(s: string): nat
  {
    if |s| == 0 || s[0] == Separator then 0 else 1 + FirstSeparator(s[1..])
  }

  /** Scanning for the first separator walks straight through a separator-free prefix. */
  lemma {:induction false} FirstSeparatorSkips(p: string, rest: string)
    requires Separator !in p
    ensures FirstSeparator(p + rest) == |p| + FirstSeparator(rest)
  {
    if |p| > 0 {
      assert (p + rest)[0] == p[0];
      assert (p + rest)[1..] == p[1..] + rest;
      FirstSeparatorSkips(p[1..], rest);
    } else {
      assert p + rest == rest;
    }
  }

  /** No separator-free segments other than `Split`'s join to the same string. */
  lemma {:induction false} JoinInjective(a: seq<string>, b: seq<string>)
    requires |a| >= 1 && |b| >= 1
    requires forall i :: 0 <= i < |a| ==> Separator !in a[i]
    requires forall i :: 0 <= i < |b| ==> Separator !in b[i]
    requires Join(a) == Join(b)
    ensures a == b
    decreases |a|
  {
    var s := Join(a);
    var restA := if |a| == 1 then "" else [Separator] + Join(a[1..]);
    var restB := if |b| == 1 then "" else [Separator] + Join(b[1..]);
    assert s == a[0] + restA == b[0] + restB;
    // Both first segments end at the first separator of the joined string.
    FirstSeparatorSkips(a[0], restA);
    FirstSeparatorSkips(b[0], restB);
    assert FirstSeparator(restA) == 0 && FirstSeparator(restB) == 0;
    var k := |a[0]|;
    assert k == |b[0]|;
    assert a[0] == s[..k] == b[0];
    assert restA == s[k..] == restB;
    if |a| >= 2 {
      assert |b| >= 2 by { assert |restB| == |restA| > 0; }
      assert Join(a[1..]) == restA[1..] == Join(b[1..]);
      JoinInjective(a[1..], b[1..]);
      assert a == [a[0]] + a[1..];
      assert b == [b[0]] + b[1..];
    } else {
      assert |b| == 1 by { assert |restB| == |restA| == 0; }
    }
  }

  /** Splitting a join of separator-free segments gives those segments back. */
  lemma SplitJoin(parts: seq<string>)
    requires |parts| >= 1
    requires forall i :: 0 <= i < |parts| ==> Separator !in parts[i]
    ensures Split(Join(parts)) == parts
  {
    JoinInjective(Split(Join(parts)), parts);
  }

  /**
   * `extractTokenExpiry(token)`: the second `.`-separated segment, decoded, must carry a
   * truthy `exp`; the result is `exp * 1000`. Any failure along the way -- no second segment,
   * an undecodable payload, a missing or falsy claim -- is the single `DecodeFailed`.
   */
  function ExtractTokenExpiry(token: string, host: Host): (r: Result<Number, DecodeError>)
    // success exactly when there is a payload segment that decodes to claims with a truthy `exp`
    ensures r.Success? <==>
              && |Split(token)| >= 2
              && host.decodeTokenPayload(Split(token)[1]).Some?
              && Truthy(Get(host.decodeTokenPayload(Split(token)[1]).value, ExpClaim))
  {
    var parts := Split(token);
    if |parts| < 2 then Failure(DecodeFailed)
    else
      match host.decodeTokenPayload(parts[1])
      case None => Failure(DecodeFailed)
      case Some(payload) =>
        var exp := Get(payload, ExpClaim);
        if !Truthy(exp) then Failure(DecodeFailed)
        else Success(Times(ToNumber(exp, host.parseNumber), 1000.0))
  }

  /** A token of the shape header.payload.signature whose payload carries `exp = e` seconds expires at `e * 1000` ms. */
  lemma ExpiryOfWellFormedToken(header: string, payload: string, signature: string, host: Host, claims: Record, e: real)
    requires Separator !in header && Separator !in payload && Separator !in signature
    requires host.decodeTokenPayload(payload) == Some(claims)
    requires Get(claims, ExpClaim) == Num(Finite(e)) && e != 0.0
    ensures ExtractTokenExpiry(Join([header, payload, signature]), host) == Success(Finite(e * 1000.0))
  {
    SplitJoin([header, payload, signature]);
  }

  /**
   * Only the payload segment is read: replacing the header, the signature, or adding and removing
   * trailing segments leaves the result unchanged. In particular the segment count is not checked.
   */
  lemma OnlyPayloadSegmentMatters(header: string, header': string, payload: string,
                                  tail: seq<string>, tail': seq<string>, host: Host)
    requires Separator !in header && Separator !in header' && Separator !in payload
    requires forall i :: 0 <= i < |tail| ==> Separator !in tail[i]
    requires forall i :: 0 <= i < |tail'| ==> Separator !in tail'[i]
    ensures ExtractTokenExpiry(Join([header, payload] + tail), host)
         == ExtractTokenExpiry(Join([header', payload] + tail'), host)
  {
    var parts, parts' := [header, payload] + tail, [header', payload] + tail';
    assert forall i :: 0 <= i < |parts| ==> Separator !in parts[i] by {
      forall i | 0 <= i < |parts| ensures Separator !in parts[i] {
        if i >= 2 { assert parts[i] == tail[i - 2]; }
      }
    }
    assert forall i :: 0 <= i < |parts'| ==> Separator !in parts'[i] by {
      forall i | 0 <= i < |parts'| ensures Separator !in parts'[i] {
        if i >= 2 { assert parts'[i] == tail'[i - 2]; }
      }
    }
    SplitJoin(parts);
    SplitJoin(parts');
  }

  /** A token without any `.` has no payload segment and fails. */
  lemma NoSeparatorFails(token: string, host: Host)
    requires Separator !in token
    ensures ExtractTokenExpiry(token, host) == Failure(DecodeFailed)
  {
  }

  /** A payload segment that does not decode to an object fails. */
  lemma UndecodablePayloadFails(token: string, host: Host)
    requires |Split(token)| >= 2
    requires host.decodeTokenPayload(Split(token)[1]).None?
    ensures ExtractTokenExpiry(token, host) == Failure(DecodeFailed)
  {
  }

  /** A missing or falsy claim fails; `exp = 0` is rejected like a missing one. */
  lemma FalsyClaimFails(header: string, payload: string, signature: string, host: Host, claims: Record)
    requires Separator !in header && Separator !in payload && Separator !in signature
    requires host.decodeTokenPayload(payload) == Some(claims)
    requires !Truthy(Get(claims, ExpClaim))
    ensures ExtractTokenExpiry(Join([header, payload, signature]), host) == Failure(DecodeFailed)
  {
    SplitJoin([header, payload, signature]);
  }

  /**
   * A truthy but non-numeric claim (`"exp": "soon"`) is not an error: the multiplication
   * yields NaN, and NaN is what is returned.
   */
  lemma NonNumericClaimYieldsNaN(header: string, payload: string, signature: string, host: Host,
                                 claims: Record, text: string)
    requires Separator !in header && Separator !in payload && Separator !in signature
    requires host.decodeTokenPayload(payload) == Some(claims)
    requires Get(claims, ExpClaim) == Text(text) && text != ""
    requires host.parseNumber(text) == NaN
    ensures ExtractTokenExpiry(Join([header, payload, signature]), host) == Success(NaN)
  {
    SplitJoin([header, payload, signature]);
  }

  /** On success the expiry is the claim's numeric value scaled from seconds to milliseconds. */
  lemma SuccessIsClaimTimesThousand(token: string, host: Host)
    requires ExtractTokenExpiry(token, host).Success?
    ensures var payload := host.decodeTokenPayload(Split(token)[1]);
            && payload.Some?
            && Truthy(Get(payload.value, ExpClaim))
            && ExtractTokenExpiry(token, host).value
               == Times(ToNumber(Get(payload.value, ExpClaim), host.parseNumber), 1000.0)
  {
  }
}

=== FILE: TokenValidity.dfy ===
/** When a stored bearer token may still be used. */
module TokenValidity {
  import opened Js

  /** `!!token && expiry > now`. */
  predicate IsTokenValid(token: string, expiry: Number, now: int)
  {
    token != "" && GreaterThan(expiry, FromMillis(now))
  }

  /** Validity means exactly: a non-empty token whose expiry is a number strictly after `now`. */
  lemma ValidIff(token: string, expiry: Number, now: int)
    ensures IsTokenValid(token, expiry, now)
        <==> token != "" && expiry.Finite? && expiry.x > now as real
  {
  }

  /** An empty token is never valid, whatever its expiry. */
  lemma EmptyTokenInvalid(expiry: Number, now: int)
    ensures !IsTokenValid("", expiry, now)
  {
  }

  /** The boundary is strict: a token expiring exactly now is already invalid. */
  lemma ExpiryAtNowInvalid(token: string, now: int)
    ensures !IsTokenValid(token, FromMillis(now), now)
  {
  }

  /** A NaN expiry (from a non-numeric `exp` claim) never validates a token. */
  lemma NaNExpiryInvalid(token: string, now: int)
    ensures !IsTokenValid(token, NaN, now)
  {
  }

  /** A token valid now was valid at every earlier instant. */
  lemma ValidEarlier(token: string, expiry: Number, now: int, earlier: int)
    requires earlier <= now
    requires IsTokenValid(token, expiry, now)
    ensures IsTokenValid(token, expiry, earlier)
  {
  }

  /** Pushing the expiry later never invalidates a token. */
  lemma ValidWithLaterExpiry(token: string, expiry: Number, later: Number, now: int)
    requires IsTokenValid(token, expiry, now)
    requires later.Finite? && later.x >= expiry.x
    ensures IsTokenValid(token, later, now)
  {
  }
}

=== FILE: Wrappers.dfy ===
/** Option and Result, used throughout the model. */
module Wrappers {

  /** An optional value: `None` plays the role of JavaScript's `undefined`/`null`. */
  datatype Option<+T> = None | Some(value: T)

  /** The outcome of an operation that may throw: `Failure` carries the kind of the exception. */
  datatype Result<+R, +E> = Success(value: R) | Failure(error: E)
}
